=== FILE: README.md ===
# Quote manager: server-wins synchronisation, filtering and categories

A Dafny model of the decision logic of the browser quote manager in
`dom-manipulation/script.js`. The manager keeps a list of quotes, each a
text with a category tag, and every so often pulls posts from a server and
merges them into that list. The model covers:

- the merge `handleConflicts`. Each server quote, in batch order, either
  overwrites the first stored quote with the same text or is appended. One
  flag reports whether any overwrite happened.
- the decision part of `syncQuotes`: the status is "success" when the merge
  reported a conflict and "info" otherwise.
- the mapping in `fetchQuotesFromServer`. It keeps the first three posts and
  turns each title into a quote of category "Server". On failure it gives no
  quote at all.
- the category filter of `filterQuotes`.
- the category list of `populateCategories`: distinct categories, in the
  iteration order of a JavaScript `Set`.
- the append in `importFromJsonFile`.

Everything is pure functions over `seq<Quote>`. The only exception is
`Merge.HandleConflictsLoop`, a method that writes the imperative loop out and
is proved equal to the fold. Quote identity is the text, compared exactly and
case-sensitively, as `===` does.

Files:

- `seqs.dfy` (module `Seqs`): distinctness, `Min`, subsequences given by
  positions, first occurrence, removal of repetitions in `Set` order, and
  removal of given elements.
- `quotes.dfy` (module `Quotes`): the `Quote` record and `findIndex` by text.
- `merge.dfy` (module `Merge`): the merge and its proofs. The merge is a
  left fold of one `forEach` step. It is related to `ExpectedQuotes` /
  `ExpectedConflicts`, a closed-form description written independently of
  the fold: every local slot is settled, then one slot follows per new text.
  The fold is proved equal to it slot by slot.
- `sync.dfy` (module `Sync`): the server payload mapping and one
  synchronisation round.
- `browse.dfy` (module `Browse`): the filter, the category list and import.

Four behaviours of the code are worth stating up front, and the model
follows each of them:

- The merge reports one boolean, "something was overwritten", not a
  three-way outcome and not counts of added and replaced quotes.
- A text that occurs twice within one batch: the later quote overwrites the
  copy the earlier one just appended, and that overwrite counts as a
  conflict. `Merge.ConflictsExactly` states this rule.
- A failed fetch becomes an empty batch. The round then reports "info" and
  leaves the list as it is. `Sync.SyncQuotes` states exactly that.
- Texts are compared exactly and case-sensitively.

## Model

| member | source | states |
|---|---|---|
| `Quotes.FindIndex` | dom-manipulation/script.js:44 | the result is -1 exactly when no quote carries the text; otherwise it is the index of the first quote that does |
| `Merge.MergeOne` | dom-manipulation/script.js:44-52 | one server quote reports a conflict exactly when its text is already in the list; if not, the list grows by that quote at the end, and if so, the length stays the same |
| `Merge.MergeOneOverwrites` | dom-manipulation/script.js:44-51 | the first slot holding the server quote's text becomes the server quote |
| `Merge.MergeOneKeeps` | dom-manipulation/script.js:44-51 | every slot other than the first one with the server quote's text is left as it was |
| `Merge.HandleConflicts` | dom-manipulation/script.js:39-56 | the merged list is at least as long as the local list and at most longer by the batch size |
| `Merge.HandleConflictsLoop` | dom-manipulation/script.js:39-56 | the `forEach` loop with its `findIndex` scan computes the same list and flag as the fold |
| `Merge.MergedLayout` | dom-manipulation/script.js:43-53 | the merged list keeps each local slot's text at its index, then holds one slot per new text, each absent from the local list, once, in order of first appearance in the batch |
| `Merge.MergedMembership` | dom-manipulation/script.js:43-53 | a text is in the merged list exactly when it is in the local list or in the batch |
| `Merge.MergedLocalSlot` | dom-manipulation/script.js:43-53 | a local slot ends up as the batch's last quote with its text when it is the first slot with that text, and unchanged otherwise |
| `Merge.MergedNewSlot` | dom-manipulation/script.js:44-51 | a slot after the local ones holds the batch's last quote with that slot's text |
| `Merge.LastIndexIsLast` | dom-manipulation/script.js:43-51 | the quote a batch leaves under a text is its last quote with that text: no later quote carries it |
| `Merge.MergedConflicts` | dom-manipulation/script.js:40-55 | the flag is raised exactly when some server quote found its text in the list as it stood when the quote was processed, either stored before or appended earlier in the same batch |
| `Merge.HandleConflictsMatchesReference` | dom-manipulation/script.js:39-56 | the fold equals the closed-form description, for the list and for the flag |
| `Merge.EmptyBatchChangesNothing` | dom-manipulation/script.js:39-55 | an empty batch leaves the list identical and reports no conflict |
| `Merge.UntouchedRecordKept` | dom-manipulation/script.js:43-53 | a local quote whose text no server quote carries keeps its index and content |
| `Merge.LaterDuplicateKept` | dom-manipulation/script.js:44-51 | when the local list holds a text twice, the later copy is never overwritten |
| `Merge.FirstMatchTakesLastServerRecord` | dom-manipulation/script.js:43-51 | the first local quote with a text the batch carries ends up as the batch's last quote with that text |
| `Merge.MergedAppends` | dom-manipulation/script.js:44-47 | a server quote whose text is in neither the local list nor the earlier batch is appended at the end, and the flag is unchanged |
| `Merge.FreshBatchAppended` | dom-manipulation/script.js:44-47 | a batch of pairwise different texts, none stored, is appended in batch order without conflict |
| `Merge.ConflictsExactly` | dom-manipulation/script.js:40-55 | the flag is raised exactly when some server quote's text is stored or the batch repeats a text |
| `Merge.MergedRecordOrigin` | dom-manipulation/script.js:43-53 | every merged quote is a local quote or a server quote |
| `Merge.ResyncChangesNothing` | dom-manipulation/script.js:39-56 | merging the same batch into the merged list again changes nothing, and reports a conflict unless the batch is empty |
| `Sync.ServerQuotes` | dom-manipulation/script.js:70-73 | one quote per title, in order, with the title as text and category "Server" |
| `Sync.FetchQuotesFromServer` | dom-manipulation/script.js:70-77 | a failed fetch gives no quote; otherwise the batch has min(number of posts, 3) quotes, the i-th built from the i-th post |
| `Sync.FetchedBatchBounded` | dom-manipulation/script.js:70-73 | a fetched batch has at most 3 quotes, all of category "Server" |
| `Sync.FetchedTextsAreLeadingTitles` | dom-manipulation/script.js:70-71 | the texts of the fetched batch are the leading titles of the payload, in payload order |
| `Sync.LaterPostsIgnored` | dom-manipulation/script.js:70 | posts after the third do not affect the fetched batch |
| `Sync.SyncQuotes` | dom-manipulation/script.js:19-36 | the list after a round is the fetched batch merged into the stored list, as the closed-form merge result describes it; a failed fetch leaves the list as it is with status "info"; at most 3 quotes are added; the status is "success" exactly when some server quote found its text already present |
| `Sync.SyncSuccessExactly` | dom-manipulation/script.js:24-31 | the status is "success" exactly when a kept post's title is a stored text or two kept posts share a title |
| `Sync.SyncedQuoteOrigin` | dom-manipulation/script.js:19-36 | after a round, every quote is a stored one or one of category "Server" built from a kept post |
| `Sync.RepeatedSyncStable` | dom-manipulation/script.js:19-36 | a second round on the same response leaves the list unchanged |
| `Browse.OfCategory` | dom-manipulation/script.js:144 | a quote is selected exactly when it is in the list with the selected category; the result is no longer than the list |
| `Browse.OfCategoryCount` | dom-manipulation/script.js:144 | each quote of the category is kept as many times as the list holds it, and no other quote is kept |
| `Browse.OfCategoryIsSubsequence` | dom-manipulation/script.js:144 | the selected quotes sit at strictly increasing positions of the list |
| `Browse.OfCategoryAppend` | dom-manipulation/script.js:144 | filtering a concatenation filters each part and concatenates the results |
| `Browse.FilterQuotes` | dom-manipulation/script.js:142-146 | "all" gives the list unchanged; any other value gives exactly the quotes of that category, with their multiplicities |
| `Browse.FilterKeepsOrder` | dom-manipulation/script.js:144 | for any selection, the filtered quotes keep their order in the list |
| `Browse.CategoryList` | dom-manipulation/script.js:151 | the i-th entry is the category of the i-th quote |
| `Browse.Categories` | dom-manipulation/script.js:151 | no category appears twice, and a category appears exactly when some quote has it |
| `Browse.CategoryOffered` | dom-manipulation/script.js:151 | a category is in the category list computed from a list exactly when some quote of that list carries it |
| `Browse.CategoriesInFirstOccurrenceOrder` | dom-manipulation/script.js:151 | the categories are ordered by the position of the first quote carrying each, as a `Set` iterates |
| `Seqs.DedupFirstOccurrenceOrder` | dom-manipulation/script.js:151 | removing repetitions keeps the elements in the order of their first occurrence |
| `Seqs.DedupAppend` | dom-manipulation/script.js:151 | the distinct elements of a concatenation are those of the first part, then the new ones of the second part |
| `Browse.CategoryOfferedIffSelectable` | dom-manipulation/script.js:144-151 | a category other than "all" is in the category list computed from a list exactly when filtering that list on it selects some quote |
| `Browse.AllCategoryShowsEverything` | dom-manipulation/script.js:144-151 | a quote of category "all" puts "all" in the category list computed from the list, yet filtering on "all" gives every quote, not only those of category "all" |
| `Browse.ImportQuotes` | dom-manipulation/script.js:127 | the imported quotes follow the stored ones, each slot kept, with the multiset of quotes the sum of both: nothing is deduplicated |
| `Browse.ImportTwiceDuplicates` | dom-manipulation/script.js:127 | importing the same quotes twice stores each of them at least twice |
| `Browse.FilterAfterImport` | dom-manipulation/script.js:127 | after an import, a filter gives the stored matches followed by the imported matches |
| `Browse.CategoriesAfterImport` | dom-manipulation/script.js:127 | the category list computed from the list after an import is the one computed before, followed by the imported categories it lacked, in first-occurrence order |

## Left out

- The network request, `await` and the JSON decoding of the response
  (lines 66-67). The fetch outcome is an input: a list of post titles or a
  failure. `FetchFailed` stands for any exception the `catch` on line 74
  handles. That includes a rejected request or a body that is not JSON. It
  also includes the `TypeError`s that lines 70-71 throw on a payload that is
  not an array (an HTTP error body such as `{}`, since `fetch` does not
  reject on an error status) or on a `null` post among the first three. A
  post whose `title` is missing, `null` or a number gives a quote whose
  text is not a string (`undefined`, `null`, a number); titles are modelled
  as strings only, so this is not modelled.
- Interleaving of rounds and imports. `syncQuotes` runs from the page-load
  call on line 15 and from the timer on line 9, so two rounds can be in
  flight at once, and an import can run during the `await` on line 20. The
  model's stored list is the list as it stands when the response arrives.
  That is exact, because lines 24-35 run without yielding.
- `localStorage` load and save, and `JSON.parse` / `JSON.stringify`
  (lines 2, 59-61, 110, 126). The stored list and the imported list are
  inputs, and the initial three quotes are not modelled.
- Stored and imported elements that are not `{text, category}` records of
  strings. The model assumes every element is such a record. In JavaScript
  the spread on line 127 accepts any iterable: an array of arbitrary values,
  or a string, which pushes its characters one by one. A non-iterable value
  (an object, a number, a boolean, `null`) makes it throw. A stored
  `null` or string then makes `q.text` on line 44 throw a `TypeError` or
  yield `undefined`. A `TypeError` there stops `handleConflicts` partway:
  the server quotes already processed stay merged in place, no status is
  shown and nothing is saved (lines 27-35 are skipped). A stored element
  without a `text` matches a post without a `title`, since
  `undefined === undefined`. None of this is modelled.
- Browse.ImportQuotes: the engine's limit on the number of arguments of a
  call is not modelled. Line 127 passes every imported element to `push` as
  a separate argument. An import file with more elements than the engine
  accepts (65536 in JavaScriptCore; V8's bound depends on the stack size)
  makes the spread throw a `RangeError` before anything is pushed. Lines
  128-130 are then skipped and the list stays as it was. The limit belongs
  to the engine, not to the program, so the model appends a sequence of any
  length.
- Refreshing the category options. `populateCategories` runs once, on
  `DOMContentLoaded` (line 161), and only appends options (line 156).
  Neither `importFromJsonFile` nor `syncQuotes` calls it. The options shown
  therefore stay those of the list at page load until the next load. For
  example, "Server" is not offered after a sync. The model states what the
  category list computed from a given list is, not when the page shows it.
- The timers `setInterval` and `setTimeout` (lines 9, 103-105), and the
  `console` logging.
- Rendering and event wiring: `displayQuotes`, the status-bar texts, colours
  and visibility of `showStatusMessage`, export through a `Blob` link,
  `FileReader`, the `alert`, and the creation of option elements
  (lines 81-106, 109-120, 124-133, 135-139, 152-161). The model keeps the
  status kind. It does not keep the message texts on lines 28 and 30.
- The root `script.js`, which is not part of this model: a random quote
  picker and a form builder, with no decision logic.
- Merge.HandleConflicts: its own contract states only the length bounds.
  The slot-by-slot result and the flag are stated by
  `Merge.HandleConflictsMatchesReference` and the lemmas it rests on, which
  keeps each proof small.
- The list is updated in place in JavaScript (`push`, index assignment).
  The model returns the new list instead; nothing else shares the array.

=== FILE: browse.dfy ===
/**
 The list operations around the stored quotes: the category filter, the
 list of categories computed for the filter's options, and the import of
 quotes from a file, which appends them without looking for repetitions.
 */
module Browse {
  import opened Seqs
  import opened Quotes

  /** Filter value that selects every quote. */
  const AllCategories: string := "all"

  /** The quotes of category `category`, in list order (`quotes.filter(...)`). */
  function OfCategory(quotes: seq<Quote>, category: string): (r: seq<Quote>)
    ensures forall q :: q in r <==> q in quotes && q.category == category
    ensures |r| <= |quotes|
    decreases |quotes|
  {
    if quotes == [] then []
    else
      var init := quotes[..|quotes| - 1];
      var last := quotes[|quotes| - 1];
      assert quotes == init + [last];
      OfCategory(init, category) + (if last.category == category then [last] else [])
  }

  lemma {:induction false} OfCategorySnoc(quotes: seq<Quote>, q: Quote, category: string)
    ensures OfCategory(quotes + [q], category) ==
      OfCategory(quotes, category) + (if q.category == category then [q] else [])
  {
    assert (quotes + [q])[..|quotes|] == quotes;
  }

  /** Filtering keeps each quote of the category as many times as the list holds it, and no other quote. */
  lemma {:induction false} OfCategoryCount(quotes: seq<Quote>, category: string, q: Quote)
    ensures multiset(OfCategory(quotes, category))[q] ==
      if q.category == category then multiset(quotes)[q] else 0
    decreases |quotes|
  {
    if quotes != [] {
      var init := quotes[..|quotes| - 1];
      var last := quotes[|quotes| - 1];
      assert quotes == init + [last];
      OfCategoryCount(init, category, q);
      OfCategorySnoc(init, last, category);
    }
  }

  lemma {:induction false} OfCategoryCounts(quotes: seq<Quote>, category: string)
    ensures forall q :: multiset(OfCategory(quotes, category))[q] == if q.category == category then multiset(quotes)[q] else 0
  {
    forall q
      ensures multiset(OfCategory(quotes, category))[q] == if q.category == category then multiset(quotes)[q] else 0
    {
      OfCategoryCount(quotes, category, q);
    }
  }

  /** Filtering a concatenation filters each part. */
  lemma {:induction false} OfCategoryAppend(a: seq<Quote>, b: seq<Quote>, category: string)
    ensures OfCategory(a + b, category) == OfCategory(a, category) + OfCategory(b, category)
    decreases |b|
  {
    if b == [] {
      assert a + b == a;
    } else {
      var init := b[..|b| - 1];
      var last := b[|b| - 1];
      assert b == init + [last];
      assert a + b == (a + init) + [last];
      OfCategoryAppend(a, init, category);
      OfCategorySnoc(a + init, last, category);
      OfCategorySnoc(init, last, category);
      AppendAssoc(OfCategory(a, category), OfCategory(init, category), if last.category == category then [last] else []);
    }
  }

  /** The filtered quotes are an order-preserving subsequence of the list. */
  lemma {:induction false} OfCategoryIsSubsequence(quotes: seq<Quote>, category: string) returns (idx: seq<int>)
    ensures SubsequenceAt(OfCategory(quotes, category), quotes, idx)
    decreases |quotes|
  {
    if quotes == [] {
      idx := [];
    } else {
      var n := |quotes| - 1;
      var init := quotes[..n];
      var last := quotes[n];
      assert quotes == init + [last];
      var prev := OfCategoryIsSubsequence(init, category);
      OfCategorySnoc(init, last, category);
      idx := if last.category == category then prev + [n] else prev;
    }
  }

  /**
   `filterQuotes`: the value "all" selects the list as it is, any other
   value the quotes whose category equals it exactly.
   */
  function FilterQuotes(quotes: seq<Quote>, selected: string): (r: seq<Quote>)
    ensures selected == AllCategories ==> r == quotes
    ensures selected != AllCategories ==> forall q :: q in r <==> q in quotes && q.category == selected
    ensures selected != AllCategories ==> forall q :: multiset(r)[q] == if q.category == selected then multiset(quotes)[q] else 0
  {
    if selected == AllCategories then quotes
    else
      OfCategoryCounts(quotes, selected);
      OfCategory(quotes, selected)
  }

  /** Filtering on any value keeps the list's order. */
  lemma {:induction false} FilterKeepsOrder(quotes: seq<Quote>, selected: string) returns (idx: seq<int>)
    ensures SubsequenceAt(FilterQuotes(quotes, selected), quotes, idx)
  {
    if selected == AllCategories {
      idx := seq(|quotes|, k requires 0 <= k < |quotes| => k);
    } else {
      idx := OfCategoryIsSubsequence(quotes, selected);
    }
  }

  /** The category of every quote, position by position (`quotes.map(quote => quote.category)`). */
  function CategoryList(quotes: seq<Quote>): (cs: seq<string>)
    ensures |cs| == |quotes|
    ensures forall i :: 0 <= i < |quotes| ==> cs[i] == quotes[i].category
  {
    seq(|quotes|, i requires 0 <= i < |quotes| => quotes[i].category)
  }

  /**
   `populateCategories`: the categories present in the list, each once,
   in the iteration order of the JavaScript `Set` built from them.
   */
  function Categories(quotes: seq<Quote>): (cs: seq<string>)
    ensures Distinct(cs)
    ensures forall c :: c in cs <==> c in CategoryList(quotes)
  {
    DedupDistinct(CategoryList(quotes));
    Dedup(CategoryList(quotes))
  }

  /** A category is in the category list of `quotes` exactly when some quote carries it. */
  lemma {:induction false} CategoryOffered(quotes: seq<Quote>, c: string)
    ensures c in Categories(quotes) <==> exists i :: 0 <= i < |quotes| && quotes[i].category == c
  {
    if c in CategoryList(quotes) {
      var i := FirstIndex(CategoryList(quotes), c);
      assert quotes[i].category == c;
    }
  }

  /** The categories are ordered by the position of the first quote carrying each. */
  lemma {:induction false} CategoriesInFirstOccurrenceOrder(quotes: seq<Quote>)
    ensures forall i, j :: 0 <= i < j < |Categories(quotes)| ==>
      FirstIndex(CategoryList(quotes), Categories(quotes)[i]) < FirstIndex(CategoryList(quotes), Categories(quotes)[j])
  {
    DedupFirstOccurrenceOrder(CategoryList(quotes));
  }

  /**
   A category is in the category list of `quotes` exactly when filtering
   `quotes` on it selects some quote.
   The category "all" is excluded because it clashes with the filter value;
   `AllCategoryShowsEverything` states what happens to it.
   */
  lemma {:induction false} CategoryOfferedIffSelectable(quotes: seq<Quote>, c: string)
    requires c != AllCategories
    ensures c in Categories(quotes) <==> FilterQuotes(quotes, c) != []
  {
    var r := FilterQuotes(quotes, c);
    if c in CategoryList(quotes) {
      var i := FirstIndex(CategoryList(quotes), c);
      assert quotes[i] in quotes;
    }
    if r != [] {
      assert r[0] in r;
      var i := FirstIndex(quotes, r[0]);
      assert CategoryList(quotes)[i] == c;
    }
  }

  /**
   A quote whose category is "all" puts "all" in the category list, but
   filtering on "all" gives every quote rather than the quotes of category "all".
   */
  lemma {:induction false} AllCategoryShowsEverything(quotes: seq<Quote>, i: int, j: int)
    requires 0 <= i < |quotes| && quotes[i].category == AllCategories
    requires 0 <= j < |quotes| && quotes[j].category != AllCategories
    ensures AllCategories in Categories(quotes)
    ensures FilterQuotes(quotes, AllCategories) == quotes
    ensures FilterQuotes(quotes, AllCategories) != OfCategory(quotes, AllCategories)
  {
    assert CategoryList(quotes)[i] == AllCategories;
    assert quotes[j] in quotes;
  }

  /** The append of `importFromJsonFile`: the imported quotes go after the stored ones, repetitions included. */
  function ImportQuotes(quotes: seq<Quote>, imported: seq<Quote>): (r: seq<Quote>)
    ensures |r| == |quotes| + |imported|
    ensures multiset(r) == multiset(quotes) + multiset(imported)
    ensures forall i :: 0 <= i < |quotes| ==> r[i] == quotes[i]
    ensures forall k :: 0 <= k < |imported| ==> r[|quotes| + k] == imported[k]
  {
    quotes + imported
  }

  /** Importing the same quotes twice stores them twice. */
  lemma {:induction false} ImportTwiceDuplicates(quotes: seq<Quote>, imported: seq<Quote>, q: Quote)
    requires q in imported
    ensures multiset(ImportQuotes(ImportQuotes(quotes, imported), imported))[q] >= 2
  {
    assert multiset(imported)[q] >= 1;
  }

  /** Filtering after an import is filtering the stored quotes, then the imported ones. */
  lemma {:induction false} FilterAfterImport(quotes: seq<Quote>, imported: seq<Quote>, selected: string)
    ensures FilterQuotes(ImportQuotes(quotes, imported), selected) ==
      FilterQuotes(quotes, selected) + FilterQuotes(imported, selected)
  {
    if selected != AllCategories {
      OfCategoryAppend(quotes, imported, selected);
    }
  }

  /** The category list of the list after an import: the old one, then the imported categories that are new. */
  lemma {:induction false} CategoriesAfterImport(quotes: seq<Quote>, imported: seq<Quote>)
    ensures Categories(ImportQuotes(quotes, imported)) ==
      Categories(quotes) + Without(Categories(imported), CategoryList(quotes))
  {
    assert CategoryList(quotes + imported) == CategoryList(quotes) + CategoryList(imported);
    DedupAppend(CategoryList(quotes), CategoryList(imported));
  }
}

=== FILE: merge.dfy ===
/**
 The server-wins merge of `handleConflicts`: every record of a server batch,
 in batch order, either overwrites the first local record with the same text
 or, when no record has that text, is appended. The result carries a single
 flag telling whether any record of the batch overwrote one.
 */
module Merge {
  import opened Seqs
  import opened Quotes

  /** The merged list and whether some server record found its text already present. */
  datatype Merged = Merged(quotes: seq<Quote>, conflicts: bool)

  /** One run of the `forEach` callback of `handleConflicts` for `serverQuote`. */
  function MergeOne(quotes: seq<Quote>, serverQuote: Quote): (r: Merged)
    ensures r.conflicts <==> serverQuote.text in Texts(quotes)
    ensures !r.conflicts ==> r.quotes == quotes + [serverQuote]
    ensures r.conflicts ==> |r.quotes| == |quotes|
  {
    var i := FindIndex(quotes, serverQuote.text);
    if i == NotFound then Merged(quotes + [serverQuote], false)
    else Merged(quotes[i := serverQuote], true)
  }

  /**
   `handleConflicts`: a left fold of `MergeOne` over the server batch. Each
   record is looked up in the list as it stands after the records before it,
   and the conflict flag, once raised, stays raised.
   */
  function HandleConflicts(local: seq<Quote>, server: seq<Quote>): (r: Merged)
    ensures |local| <= |r.quotes| <= |local| + |server|
    decreases |server|
  {
    if server == [] then Merged(local, false)
    else
      var done := HandleConflicts(local, server[..|server| - 1]);
      var step := MergeOne(done.quotes, server[|server| - 1]);
      Merged(step.quotes, done.conflicts || step.conflicts)
  }

  lemma {:induction false} HandleConflictsSnoc(local: seq<Quote>, server: seq<Quote>, s: Quote)
    ensures HandleConflicts(local, server + [s]) ==
      var done := HandleConflicts(local, server);
      var step := MergeOne(done.quotes, s);
      Merged(step.quotes, done.conflicts || step.conflicts)
  {
    assert (server + [s])[..|server|] == server;
  }

  /** The `forEach` loop of `handleConflicts`, with the inner `findIndex` scan written out. */
  method HandleConflictsLoop(local: seq<Quote>, server: seq<Quote>) returns (quotes: seq<Quote>, conflictsDetected: bool)
    ensures Merged(quotes, conflictsDetected) == HandleConflicts(local, server)
  {
    quotes := local;
    conflictsDetected := false;
    for n := 0 to |server|
      invariant Merged(quotes, conflictsDetected) == HandleConflicts(local, server[..n])
    {
      var serverQuote := server[n];
      var k := 0;
      while k < |quotes| && quotes[k].text != serverQuote.text
        invariant 0 <= k <= |quotes|
        invariant forall j :: 0 <= j < k ==> quotes[j].text != serverQuote.text
      {
        k := k + 1;
      }
      ghost var step := MergeOne(quotes, serverQuote);
      if k == |quotes| {
        quotes := quotes + [serverQuote];
      } else {
        FirstWithTextUnique(quotes, k, FindIndex(quotes, serverQuote.text), serverQuote.text);
        conflictsDetected := true;
        quotes := quotes[k := serverQuote];
      }
      assert server[..n + 1] == server[..n] + [serverQuote];
      HandleConflictsSnoc(local, server[..n], serverQuote);
    }
    assert server[..|server|] == server;
  }

  // ---------------------------------------------------------------------
  // A closed-form description of the merge result, independent of the fold.
  // ---------------------------------------------------------------------

  /** Index of the last record of `server` carrying `text`. */
  function LastIndexWithText(server: seq<Quote>, text: string): (m: nat)
    requires text in Texts(server)
    ensures m < |server| && server[m].text == text
    decreases |server|
  {
    var n := |server| - 1;
    if server[n].text == text then n
    else
      TextsPrefix(server, n);
      assert text in Texts(server)[..n];
      LastIndexWithText(server[..n], text)
  }

  /** The record a batch leaves under `text`: the last one carrying it. */
  function Winner(server: seq<Quote>, text: string): (q: Quote)
    requires text in Texts(server)
    ensures q.text == text
  {
    server[LastIndexWithText(server, text)]
  }

  /** Texts the batch brings in: absent from `local`, once each, in order of first appearance in the batch. */
  function NewTexts(local: seq<Quote>, server: seq<Quote>): (ts: seq<string>)
    ensures forall t :: t in ts <==> t in Texts(server) && t !in Texts(local)
  {
    Without(Dedup(Texts(server)), Texts(local))
  }

  /** Two slots of NewTexts never hold the same text. */
  lemma {:induction false} NewTextsUnique(local: seq<Quote>, server: seq<Quote>, k: int, k': int)
    requires 0 <= k < |NewTexts(local, server)| && 0 <= k' < |NewTexts(local, server)|
    requires NewTexts(local, server)[k] == NewTexts(local, server)[k']
    ensures k == k'
  {
    DedupDistinct(Texts(server));
    WithoutDistinct(Dedup(Texts(server)), Texts(local));
  }

  /**
   What the merge leaves in local slot `i`: the batch's last record with that
   text when slot `i` is the first one holding the text, the slot's own record otherwise.
   */
  function Settled(local: seq<Quote>, server: seq<Quote>, i: int): Quote
    requires 0 <= i < |local|
  {
    if FirstWithText(local, i, local[i].text) && local[i].text in Texts(server)
    then Winner(server, local[i].text)
    else local[i]
  }

  /** The merged list in closed form: every local slot settled, then one record per new text. */
  function ExpectedQuotes(local: seq<Quote>, server: seq<Quote>): (r: seq<Quote>)
    ensures |r| == |local| + |NewTexts(local, server)|
    ensures forall i :: 0 <= i < |local| ==> r[i] == Settled(local, server, i)
    ensures forall k :: 0 <= k < |NewTexts(local, server)| ==>
      r[|local| + k] == Winner(server, NewTexts(local, server)[k])
  {
    var added := NewTexts(local, server);
    seq(|local|, i requires 0 <= i < |local| => Settled(local, server, i))
      + seq(|added|, k requires 0 <= k < |added| => Winner(server, added[k]))
  }

  /** Some server record finds its text in the list as it stands when the record is processed. */
  predicate ExpectedConflicts(local: seq<Quote>, server: seq<Quote>) {
    exists j :: 0 <= j < |server| && (server[j].text in Texts(local) || server[j].text in Texts(server[..j]))
  }

  lemma {:induction false} WinnerSnoc(server: seq<Quote>, s: Quote, text: string)
    requires text in Texts(server) || text == s.text
    ensures text in Texts(server + [s])
    ensures Winner(server + [s], text) == if text == s.text then s else Winner(server, text)
  {
    TextsSnoc(server, s);
    assert (server + [s])[..|server|] == server;
  }

  lemma {:induction false} NewTextsSnoc(local: seq<Quote>, server: seq<Quote>, s: Quote)
    ensures NewTexts(local, server + [s]) ==
      if s.text in Texts(local) || s.text in Texts(server) then NewTexts(local, server)
      else NewTexts(local, server) + [s.text]
  {
    TextsSnoc(server, s);
    DedupSnoc(Texts(server), s.text);
    WithoutSnoc(Dedup(Texts(server)), s.text, Texts(local));
  }

  lemma {:induction false} ExpectedConflictsSnoc(local: seq<Quote>, server: seq<Quote>, s: Quote)
    ensures ExpectedConflicts(local, server + [s]) <==>
      ExpectedConflicts(local, server) || s.text in Texts(local) || s.text in Texts(server)
  {
    var server' := server + [s];
    assert server'[..|server|] == server;
    assert forall j :: 0 <= j < |server| ==> server'[..j] == server[..j];
    if ExpectedConflicts(local, server') {
      var j :| 0 <= j < |server'| && (server'[j].text in Texts(local) || server'[j].text in Texts(server'[..j]));
      if j < |server| {
        assert server'[j] == server[j];
      }
    }
    if ExpectedConflicts(local, server) {
      var j :| 0 <= j < |server| && (server[j].text in Texts(local) || server[j].text in Texts(server[..j]));
      assert server'[j] == server[j];
    }
    if s.text in Texts(local) || s.text in Texts(server) {
      assert server'[|server|] == s;
    }
  }

  /** A local slot whose text differs from that of an extra batch record settles as before. */
  lemma {:induction false} SettledSnoc(local: seq<Quote>, server: seq<Quote>, s: Quote, i: int)
    requires 0 <= i < |local| && local[i].text != s.text
    ensures Settled(local, server + [s], i) == Settled(local, server, i)
  {
    TextsSnoc(server, s);
    if local[i].text in Texts(server + [s]) {
      WinnerSnoc(server, s, local[i].text);
    }
  }

  // ---------------------------------------------------------------------
  // The fold agrees with the closed form, slot by slot.
  // ---------------------------------------------------------------------

  /** `m` holds the local texts in the local slots, then the texts `nt` in the slots after them. */
  predicate Layout(local: seq<Quote>, nt: seq<string>, m: seq<Quote>) {
    && |m| == |local| + |nt|
    && (forall i :: 0 <= i < |local| ==> m[i].text == local[i].text)
    && (forall k :: 0 <= k < |nt| ==> m[|local| + k].text == nt[k])
  }

  /** A list laid out as `Layout` says carries exactly the local texts and the texts `nt`. */
  lemma {:induction false} LayoutMembership(local: seq<Quote>, nt: seq<string>, m: seq<Quote>, t: string)
    requires Layout(local, nt, m)
    ensures t in Texts(m) <==> t in Texts(local) || t in nt
  {
    if t in Texts(m) {
      var i := FirstIndex(Texts(m), t);
      if i < |local| {
        assert Texts(local)[i] == t;
      } else {
        assert nt[i - |local|] == t;
      }
    }
    if t in Texts(local) {
      var i := FirstIndex(Texts(local), t);
      assert Texts(m)[i] == t;
    } else if t in nt {
      var k := FirstIndex(nt, t);
      assert Texts(m)[|local| + k] == t;
    }
  }

  /** MergeOne keeps the layout: an overwrite keeps every text, an append adds the record's text at the end. */
  lemma {:induction false} LayoutStep(local: seq<Quote>, nt: seq<string>, m: seq<Quote>, s: Quote)
    requires Layout(local, nt, m)
    ensures MergeOne(m, s).conflicts ==> Layout(local, nt, MergeOne(m, s).quotes)
    ensures !MergeOne(m, s).conflicts ==> Layout(local, nt + [s.text], MergeOne(m, s).quotes)
  {
    var step := MergeOne(m, s);
    if step.conflicts {
      forall j | 0 <= j < |m|
        ensures step.quotes[j].text == m[j].text
      {
      }
    }
  }

  /** The merged list is the local list's texts followed by the new texts. */
  lemma {:induction false} MergedLayout(local: seq<Quote>, server: seq<Quote>)
    ensures Layout(local, NewTexts(local, server), HandleConflicts(local, server).quotes)
    decreases |server|
  {
    if server != [] {
      var n := |server| - 1;
      var init := server[..n];
      var s := server[n];
      assert server == init + [s];
      MergedLayout(local, init);
      HandleConflictsSnoc(local, init, s);
      NewTextsSnoc(local, init, s);
      var m0 := HandleConflicts(local, init).quotes;
      LayoutMembership(local, NewTexts(local, init), m0, s.text);
      LayoutStep(local, NewTexts(local, init), m0, s);
    }
  }

  /** The merged list carries exactly the texts of the local list and of the batch. */
  lemma {:induction false} MergedMembership(local: seq<Quote>, server: seq<Quote>, t: string)
    ensures t in Texts(HandleConflicts(local, server).quotes) <==> t in Texts(local) || t in Texts(server)
  {
    MergedLayout(local, server);
    LayoutMembership(local, NewTexts(local, server), HandleConflicts(local, server).quotes, t);
  }

  /** A slot that is not the first one holding the record's text is left alone by MergeOne. */
  lemma {:induction false} MergeOneKeeps(m: seq<Quote>, s: Quote, j: int)
    requires 0 <= j < |m| && !FirstWithText(m, j, s.text)
    ensures j < |MergeOne(m, s).quotes| && MergeOne(m, s).quotes[j] == m[j]
  {
  }

  /** Local slot `i` ends up as `Settled` describes. */
  lemma {:induction false} MergedLocalSlot(local: seq<Quote>, server: seq<Quote>, i: int)
    requires 0 <= i < |local|
    ensures HandleConflicts(local, server).quotes[i] == Settled(local, server, i)
    decreases |server|
  {
    if server != [] {
      var n := |server| - 1;
      var init := server[..n];
      var s := server[n];
      assert server == init + [s];
      MergedLocalSlot(local, init, i);
      HandleConflictsSnoc(local, init, s);
      var m0 := HandleConflicts(local, init).quotes;
      var t := s.text;
      if local[i].text != t {
        SettledSnoc(local, init, s, i);
        MergeOneKeeps(m0, s, i);
      } else {
        WinnerSnoc(init, s, t);
        MergedLayout(local, init);
        assert FirstWithText(m0, i, t) <==> FirstWithText(local, i, t);
        if FirstWithText(m0, i, t) {
          MergeOneOverwrites(m0, s, i);
        } else {
          MergeOneKeeps(m0, s, i);
        }
      }
    }
  }

  /** The first slot holding the record's text is overwritten by MergeOne. */
  lemma {:induction false} MergeOneOverwrites(m: seq<Quote>, s: Quote, j: int)
    requires FirstWithText(m, j, s.text)
    ensures j < |MergeOne(m, s).quotes| && MergeOne(m, s).quotes[j] == s
  {
    assert Texts(m)[j] == s.text;
  }

  /** No earlier slot of the merged list holds the text of a new-text slot. */
  lemma {:induction false} MergedNewSlotIsFirst(local: seq<Quote>, server: seq<Quote>, k: int)
    requires 0 <= k < |NewTexts(local, server)|
    ensures FirstWithText(HandleConflicts(local, server).quotes, |local| + k, NewTexts(local, server)[k])
  {
    var m := HandleConflicts(local, server).quotes;
    var nt := NewTexts(local, server);
    MergedLayout(local, server);
    assert nt[k] in nt;
    forall j | 0 <= j < |local| + k
      ensures m[j].text != nt[k]
    {
      if j < |local| {
        assert Texts(local)[j] == m[j].text;
      } else if m[j].text == nt[k] {
        NewTextsUnique(local, server, j - |local|, k);
      }
    }
  }

  /** A batch record whose text is in neither the local list nor the earlier batch is appended. */
  lemma {:induction false} MergedAppends(local: seq<Quote>, init: seq<Quote>, s: Quote)
    requires s.text !in Texts(local) && s.text !in Texts(init)
    ensures HandleConflicts(local, init + [s]) == Merged(HandleConflicts(local, init).quotes + [s], HandleConflicts(local, init).conflicts)
  {
    HandleConflictsSnoc(local, init, s);
    MergedMembership(local, init, s.text);
  }

  /** The next batch record overwrites a slot after the local ones exactly when it carries that slot's text. */
  lemma {:induction false} MergedAddedSlotStep(local: seq<Quote>, init: seq<Quote>, s: Quote, i: int)
    requires |local| <= i < |HandleConflicts(local, init).quotes|
    ensures i < |MergeOne(HandleConflicts(local, init).quotes, s).quotes|
    ensures MergeOne(HandleConflicts(local, init).quotes, s).quotes[i] ==
      if HandleConflicts(local, init).quotes[i].text == s.text then s else HandleConflicts(local, init).quotes[i]
  {
    var m0 := HandleConflicts(local, init).quotes;
    if m0[i].text == s.text {
      MergedLayout(local, init);
      MergedNewSlotIsFirst(local, init, i - |local|);
      MergeOneOverwrites(m0, s, i);
    } else {
      MergeOneKeeps(m0, s, i);
    }
  }

  /** A slot after the local ones holds the batch's last record with that slot's text. */
  lemma {:induction false} MergedNewSlot(local: seq<Quote>, server: seq<Quote>, i: int)
    requires |local| <= i < |HandleConflicts(local, server).quotes|
    ensures HandleConflicts(local, server).quotes[i].text in Texts(server)
    ensures HandleConflicts(local, server).quotes[i] == Winner(server, HandleConflicts(local, server).quotes[i].text)
    decreases |server|
  {
    assert server != [];
    var n := |server| - 1;
    var init := server[..n];
    var s := server[n];
    assert server == init + [s];
    HandleConflictsSnoc(local, init, s);
    var m0 := HandleConflicts(local, init).quotes;
    if i < |m0| {
      MergedNewSlot(local, init, i);
      MergedAddedSlotStep(local, init, s, i);
      WinnerSnoc(init, s, m0[i].text);
    } else {
      WinnerSnoc(init, s, s.text);
    }
  }

  /** The conflict flag is raised exactly when `ExpectedConflicts` holds. */
  lemma {:induction false} MergedConflicts(local: seq<Quote>, server: seq<Quote>)
    ensures HandleConflicts(local, server).conflicts <==> ExpectedConflicts(local, server)
    decreases |server|
  {
    if server != [] {
      var n := |server| - 1;
      var init := server[..n];
      var s := server[n];
      assert server == init + [s];
      MergedConflicts(local, init);
      HandleConflictsSnoc(local, init, s);
      MergedMembership(local, init, s.text);
      ExpectedConflictsSnoc(local, init, s);
    }
  }

  /** Every slot of the merged list holds what `ExpectedQuotes` puts there. */
  lemma {:induction false} MergedSlot(local: seq<Quote>, server: seq<Quote>, i: int)
    requires 0 <= i < |local| + |NewTexts(local, server)|
    ensures i < |HandleConflicts(local, server).quotes|
    ensures HandleConflicts(local, server).quotes[i] == ExpectedQuotes(local, server)[i]
  {
    var e := ExpectedQuotes(local, server);
    if i < |local| {
      MergedLocalSlot(local, server, i);
      assert e[i] == Settled(local, server, i);
    } else {
      var k := i - |local|;
      MergedLayout(local, server);
      MergedNewSlot(local, server, i);
      assert e[|local| + k] == Winner(server, NewTexts(local, server)[k]);
    }
  }

  /**
   The fold and the closed form agree: `handleConflicts` yields
   `ExpectedQuotes` and raises its flag exactly under `ExpectedConflicts`.
   */
  lemma {:induction false} HandleConflictsMatchesReference(local: seq<Quote>, server: seq<Quote>)
    ensures HandleConflicts(local, server) == Merged(ExpectedQuotes(local, server), ExpectedConflicts(local, server))
  {
    var m := HandleConflicts(local, server).quotes;
    var e := ExpectedQuotes(local, server);
    MergedLayout(local, server);
    MergedConflicts(local, server);
    forall i | 0 <= i < |e|
      ensures m[i] == e[i]
    {
      MergedSlot(local, server, i);
    }
    assert m == e;
  }

  // ---------------------------------------------------------------------
  // Consequences for callers of `handleConflicts`.
  // ---------------------------------------------------------------------

  /** No later record of the batch carries the text `LastIndexWithText` looks for. */
  lemma {:induction false} LastIndexIsLast(server: seq<Quote>, text: string, j: int)
    requires text in Texts(server)
    requires LastIndexWithText(server, text) < j < |server|
    ensures server[j].text != text
    decreases |server|
  {
    var n := |server| - 1;
    if server[n].text != text && j < n {
      TextsPrefix(server, n);
      assert text in Texts(server)[..n];
      LastIndexIsLast(server[..n], text, j);
    }
  }

  /** An empty batch leaves the list as it is and reports no conflict. */
  lemma {:induction false} EmptyBatchChangesNothing(local: seq<Quote>)
    ensures HandleConflicts(local, []) == Merged(local, false)
  {
  }

  /** A local record whose text the batch does not carry keeps its slot and its content. */
  lemma {:induction false} UntouchedRecordKept(local: seq<Quote>, server: seq<Quote>, i: int)
    requires 0 <= i < |local| && local[i].text !in Texts(server)
    ensures HandleConflicts(local, server).quotes[i] == local[i]
  {
    MergedLocalSlot(local, server, i);
  }

  /** Only the first of several local records sharing a text can be overwritten. */
  lemma {:induction false} LaterDuplicateKept(local: seq<Quote>, server: seq<Quote>, i: int, j: int)
    requires 0 <= j < i < |local| && local[j].text == local[i].text
    ensures HandleConflicts(local, server).quotes[i] == local[i]
  {
    MergedLocalSlot(local, server, i);
  }

  /** The first local record with a text the batch carries ends up as the batch's last record with that text. */
  lemma {:induction false} FirstMatchTakesLastServerRecord(local: seq<Quote>, server: seq<Quote>, i: int)
    requires 0 <= i < |local|
    requires FirstWithText(local, i, local[i].text) && local[i].text in Texts(server)
    ensures HandleConflicts(local, server).quotes[i] == Winner(server, local[i].text)
  {
    MergedLocalSlot(local, server, i);
  }

  /**
   A batch whose texts are all absent from the list and pairwise different
   is appended as it stands, without conflict.
   */
  lemma {:induction false} FreshBatchAppended(local: seq<Quote>, server: seq<Quote>)
    requires Distinct(Texts(server))
    requires forall j :: 0 <= j < |server| ==> server[j].text !in Texts(local)
    ensures HandleConflicts(local, server) == Merged(local + server, false)
    decreases |server|
  {
    if server != [] {
      var n := |server| - 1;
      var init := server[..n];
      var s := server[n];
      assert server == init + [s];
      TextsPrefix(server, n);
      assert Texts(server)[n] == s.text;
      FreshBatchAppended(local, init);
      MergedAppends(local, init, s);
      assert local + init + [s] == local + server;
    }
  }

  /**
   The flag is raised exactly when some record of the batch carries a text
   of the local list or the batch carries some text twice.
   */
  lemma {:induction false} ConflictsExactly(local: seq<Quote>, server: seq<Quote>)
    ensures HandleConflicts(local, server).conflicts <==>
      (exists j :: 0 <= j < |server| && server[j].text in Texts(local)) || !Distinct(Texts(server))
  {
    MergedConflicts(local, server);
    var ts := Texts(server);
    if ExpectedConflicts(local, server) {
      var j :| 0 <= j < |server| && (server[j].text in Texts(local) || server[j].text in Texts(server[..j]));
      if server[j].text !in Texts(local) {
        var i := FirstIndex(Texts(server[..j]), server[j].text);
        assert ts[i] == ts[j];
      }
    }
    if !Distinct(ts) {
      var i, j :| 0 <= i < j < |ts| && ts[i] == ts[j];
      assert Texts(server[..j])[i] == ts[j];
    }
  }

  /** Every merged record comes from the local list or from the batch. */
  lemma {:induction false} MergedRecordOrigin(local: seq<Quote>, server: seq<Quote>, i: int)
    requires 0 <= i < |HandleConflicts(local, server).quotes|
    ensures HandleConflicts(local, server).quotes[i] in local || HandleConflicts(local, server).quotes[i] in server
  {
    MergedLayout(local, server);
    MergedSlot(local, server, i);
    var e := ExpectedQuotes(local, server);
    if i < |local| {
      if e[i] != local[i] {
        assert e[i] == server[LastIndexWithText(server, local[i].text)];
      }
    } else {
      var t := NewTexts(local, server)[i - |local|];
      assert t in NewTexts(local, server);
      assert e[i] == server[LastIndexWithText(server, t)];
    }
  }

  /** A local slot that is the first of the merged list with a text of the batch holds the batch's last record with it. */
  lemma {:induction false} FirstMergedLocalSlot(local: seq<Quote>, server: seq<Quote>, i: int)
    requires 0 <= i < |local| && i < |HandleConflicts(local, server).quotes|
    requires FirstWithText(HandleConflicts(local, server).quotes, i, HandleConflicts(local, server).quotes[i].text)
    requires HandleConflicts(local, server).quotes[i].text in Texts(server)
    ensures HandleConflicts(local, server).quotes[i] == Winner(server, HandleConflicts(local, server).quotes[i].text)
  {
    MergedLayout(local, server);
    assert FirstWithText(local, i, local[i].text);
    MergedLocalSlot(local, server, i);
  }

  /** In a merged list, the first slot holding a text of the batch holds the batch's last record with it. */
  lemma {:induction false} MergedSlotSettled(local: seq<Quote>, server: seq<Quote>, i: int)
    requires 0 <= i < |HandleConflicts(local, server).quotes|
    ensures Settled(HandleConflicts(local, server).quotes, server, i) == HandleConflicts(local, server).quotes[i]
  {
    var m := HandleConflicts(local, server).quotes;
    if FirstWithText(m, i, m[i].text) && m[i].text in Texts(server) {
      if i < |local| {
        FirstMergedLocalSlot(local, server, i);
      } else {
        MergedNewSlot(local, server, i);
      }
    }
  }

  /** Merging the same batch a second time changes nothing; it reports a conflict unless the batch is empty. */
  lemma {:induction false} ResyncChangesNothing(local: seq<Quote>, server: seq<Quote>)
    ensures var m := HandleConflicts(local, server).quotes;
      HandleConflicts(m, server) == Merged(m, server != [])
  {
    var m := HandleConflicts(local, server).quotes;
    HandleConflictsMatchesReference(m, server);
    var nt := NewTexts(m, server);
    if nt != [] {
      assert nt[0] in nt;
      MergedMembership(local, server, nt[0]);
      assert false;
    }
    if server != [] {
      MergedMembership(local, server, server[0].text);
      assert Texts(server)[0] == server[0].text;
    }
    var e := ExpectedQuotes(m, server);
    forall i | 0 <= i < |m|
      ensures e[i] == m[i]
    {
      MergedSlotSettled(local, server, i);
    }
    assert e == m;
  }
}

=== FILE: quotes.dfy ===
/**
 The record store of the quote manager: an ordered list of quotes, each a
 text with a category tag. A quote's identity is its text, compared exactly
 and case-sensitively, as the JavaScript `===` does.
 */
module Quotes {
  import opened Seqs

  datatype Quote = Quote(text: string, category: string)

  /** Value `Array.prototype.findIndex` returns when nothing matches. */
  const NotFound: int := -1

  /** The text of every record, position by position. */
  function Texts(qs: seq<Quote>): (ts: seq<string>)
    ensures |ts| == |qs|
    ensures forall i :: 0 <= i < |qs| ==> ts[i] == qs[i].text
  {
    seq(|qs|, i requires 0 <= i < |qs| => qs[i].text)
  }

  lemma {:induction false} TextsSnoc(qs: seq<Quote>, q: Quote)
    ensures Texts(qs + [q]) == Texts(qs) + [q.text]
  {
  }

  lemma {:induction false} TextsPrefix(qs: seq<Quote>, n: nat)
    requires n <= |qs|
    ensures Texts(qs[..n]) == Texts(qs)[..n]
  {
  }

  /** Record `i` is the first one in `qs` whose text is `text`. */
  predicate FirstWithText(qs: seq<Quote>, i: int, text: string) {
    && 0 <= i < |qs|
    && qs[i].text == text
    && forall j :: 0 <= j < i ==> qs[j].text != text
  }

  /**
   `quotes.findIndex(q => q.text === text)`: the index of the first record
   carrying `text`, or `NotFound`.
   */
  function FindIndex(qs: seq<Quote>, text: string): (r: int)
    ensures r == NotFound <==> text !in Texts(qs)
    ensures r != NotFound ==> FirstWithText(qs, r, text)
  {
    var ts := Texts(qs);
    if text in ts then FirstIndex(ts, text) else NotFound
  }

  /** At most one index is the first with a given text. */
  lemma {:induction false} FirstWithTextUnique(qs: seq<Quote>, i: int, j: int, text: string)
    requires FirstWithText(qs, i, text) && FirstWithText(qs, j, text)
    ensures i == j
  {
  }
}

=== FILE: seqs.dfy ===
/**
 Generic facts about sequences used by the quote model: distinctness, the
 smaller of two lengths, subsequences given by positions, the position of a
 first occurrence, removal of repetitions in the order a
 JavaScript `Set` iterates, and removal of a given collection of elements.
 */
module Seqs {

  /** No element occurs twice. */
  predicate Distinct<T(==)>(xs: seq<T>) {
    forall i, j :: 0 <= i < j < |xs| ==> xs[i] != xs[j]
  }

  /** The smaller of two integers. */
  function Min(a: int, b: int): (m: int)
    ensures m <= a && m <= b && (m == a || m == b)
  {
    if a <= b then a else b
  }

  /** `idx` lists, in increasing order, positions of `xs` whose elements make up `r`. */
  ghost predicate SubsequenceAt<T>(r: seq<T>, xs: seq<T>, idx: seq<int>) {
    && |idx| == |r|
    && (forall k :: 0 <= k < |idx| ==> 0 <= idx[k] < |xs| && r[k] == xs[idx[k]])
    && (forall k, l :: 0 <= k < l < |idx| ==> idx[k] < idx[l])
  }

  /** Position of the first occurrence of `x` in `xs`. */
  function FirstIndex<T(==)>(xs: seq<T>, x: T): (i: nat)
    requires x in xs
    ensures i < |xs| && xs[i] == x
    ensures forall j :: 0 <= j < i ==> xs[j] != x
  {
    if xs[0] == x then 0 else 1 + FirstIndex(xs[1..], x)
  }

  /** Appending an element does not move the first occurrence of an element already present. */
  lemma {:induction false} FirstIndexSnoc<T>(xs: seq<T>, z: T, y: T)
    requires y in xs
    ensures FirstIndex(xs + [z], y) == FirstIndex(xs, y)
  {
    var k := FirstIndex(xs + [z], y);
    var m := FirstIndex(xs, y);
    assert (xs + [z])[m] == y;
  }

  /**
   The elements of `xs` without repetitions, each kept at its first
   occurrence: the iteration order of a JavaScript `Set` filled from `xs`.
   */
  function Dedup<T(==,!new)>(xs: seq<T>): (r: seq<T>)
    ensures forall x :: x in r <==> x in xs
    ensures |r| <= |xs|
    decreases |xs|
  {
    if xs == [] then []
    else
      var init := xs[..|xs| - 1];
      var last := xs[|xs| - 1];
      assert xs == init + [last];
      var prev := Dedup(init);
      if last in prev then prev else prev + [last]
  }

  /** Dedup keeps no repetition. */
  lemma {:induction false} DedupDistinct<T(!new)>(xs: seq<T>)
    ensures Distinct(Dedup(xs))
    decreases |xs|
  {
    if xs != [] {
      var init := xs[..|xs| - 1];
      assert xs == init + [xs[|xs| - 1]];
      DedupDistinct(init);
    }
  }

  /** Dedup of a sequence extended by one element. */
  lemma {:induction false} DedupSnoc<T(!new)>(xs: seq<T>, x: T)
    ensures Dedup(xs + [x]) == if x in xs then Dedup(xs) else Dedup(xs) + [x]
  {
    assert (xs + [x])[..|xs|] == xs;
  }

  /** Dedup orders the distinct elements by their first occurrence in the input. */
  lemma {:induction false} DedupFirstOccurrenceOrder<T(!new)>(xs: seq<T>)
    ensures forall i, j :: 0 <= i < j < |Dedup(xs)| ==>
      FirstIndex(xs, Dedup(xs)[i]) < FirstIndex(xs, Dedup(xs)[j])
    decreases |xs|
  {
    if xs != [] {
      var init := xs[..|xs| - 1];
      var last := xs[|xs| - 1];
      assert xs == init + [last];
      DedupFirstOccurrenceOrder(init);
      var prev := Dedup(init);
      forall y | y in init
        ensures FirstIndex(xs, y) == FirstIndex(init, y)
      {
        FirstIndexSnoc(init, last, y);
      }
      if last !in prev {
        assert last !in init;
        assert forall j :: 0 <= j < |init| ==> xs[j] != last;
        assert FirstIndex(xs, last) == |init|;
      }
    }
  }

  /** `xs` with every element of `ys` removed, order kept. */
  function Without<T(==,!new)>(xs: seq<T>, ys: seq<T>): (r: seq<T>)
    ensures forall x :: x in r <==> x in xs && x !in ys
    ensures |r| <= |xs|
    decreases |xs|
  {
    if xs == [] then []
    else
      var init := xs[..|xs| - 1];
      var last := xs[|xs| - 1];
      assert xs == init + [last];
      Without(init, ys) + (if last in ys then [] else [last])
  }

  /** Removing elements keeps a repetition-free sequence free of repetitions. */
  lemma {:induction false} WithoutDistinct<T(!new)>(xs: seq<T>, ys: seq<T>)
    requires Distinct(xs)
    ensures Distinct(Without(xs, ys))
    decreases |xs|
  {
    if xs != [] {
      var init := xs[..|xs| - 1];
      assert xs == init + [xs[|xs| - 1]];
      WithoutDistinct(init, ys);
    }
  }

  /** Without of a sequence extended by one element. */
  lemma {:induction false} WithoutSnoc<T(!new)>(xs: seq<T>, x: T, ys: seq<T>)
    ensures Without(xs + [x], ys) == Without(xs, ys) + (if x in ys then [] else [x])
  {
    assert (xs + [x])[..|xs|] == xs;
  }

  /** Concatenation is associative. */
  lemma {:induction false} AppendAssoc<T>(a: seq<T>, b: seq<T>, c: seq<T>)
    ensures (a + b) + c == a + (b + c)
  {
  }

  /**
   Dedup of a concatenation: the distinct elements of the first part, then
   those of the second part that the first part lacks, each in order of first occurrence.
   */
  lemma {:induction false} DedupAppend<T(!new)>(xs: seq<T>, ys: seq<T>)
    ensures Dedup(xs + ys) == Dedup(xs) + Without(Dedup(ys), xs)
    decreases |ys|, 1
  {
    if ys == [] {
      assert xs + ys == xs;
    } else {
      var init := ys[..|ys| - 1];
      var y := ys[|ys| - 1];
      assert ys == init + [y];
      DedupAppendSnoc(xs, init, y);
    }
  }

  /** DedupAppend for a second part written as its first elements followed by its last one. */
  lemma {:induction false} DedupAppendSnoc<T(!new)>(xs: seq<T>, init: seq<T>, y: T)
    ensures Dedup(xs + (init + [y])) == Dedup(xs) + Without(Dedup(init + [y]), xs)
    decreases |init| + 1, 0
  {
    DedupAppend(xs, init);
    var a, b := Dedup(xs), Without(Dedup(init), xs);
    AppendAssoc(xs, init, [y]);
    DedupSnoc(xs + init, y);
    DedupSnoc(init, y);
    assert y in xs + init <==> y in xs || y in init;
    if y !in init {
      WithoutSnoc(Dedup(init), y, xs);
      if y !in xs {
        AppendAssoc(a, b, [y]);
      }
    }
  }
}

=== FILE: sync.dfy ===
/**
 One synchronisation round of the quote manager: the server's posts are
 turned into quotes, merged into the local list with the server winning, and
 the round ends with a status that says whether anything was overwritten.
 The network call itself is not modelled; its outcome is an input.
 */
module Sync {
  import opened Seqs
  import opened Quotes
  import opened Merge

  /** Category every quote built from a server post carries. */
  const ServerCategory: string := "Server"

  /** Number of posts kept from one server response (`slice(0, 3)`). */
  const BatchLimit: nat := 3

  /**
   What the fetch delivered: the post titles in payload order, or
   `FetchFailed` for any exception the `catch` of `fetchQuotesFromServer`
   handles (a failed request, a body that is not JSON, a payload that is not
   an array, a `null` post among the first three).
   */
  datatype FetchResult = Posts(titles: seq<string>) | FetchFailed

  /** The quotes built from a list of post titles, one per title, in order. */
  function ServerQuotes(titles: seq<string>): (batch: seq<Quote>)
    ensures |batch| == |titles|
    ensures forall i :: 0 <= i < |titles| ==> batch[i].text == titles[i] && batch[i].category == ServerCategory
  {
    seq(|titles|, i requires 0 <= i < |titles| => Quote(titles[i], ServerCategory))
  }

  /**
   `fetchQuotesFromServer` after the request: the first `BatchLimit` posts
   as quotes of the server category, or no quote at all when the fetch failed.
   */
  function FetchQuotesFromServer(response: FetchResult): (batch: seq<Quote>)
    ensures response.FetchFailed? ==> batch == []
    ensures response.Posts? ==> |batch| == Min(|response.titles|, BatchLimit)
    ensures response.Posts? ==> forall i :: 0 <= i < |batch| ==>
      batch[i] == Quote(response.titles[i], ServerCategory)
  {
    match response
    case FetchFailed => []
    case Posts(titles) => ServerQuotes(titles[..Min(|titles|, BatchLimit)])
  }

  /** A fetched batch never holds more than `BatchLimit` quotes, all of the server category. */
  lemma {:induction false} FetchedBatchBounded(response: FetchResult)
    ensures |FetchQuotesFromServer(response)| <= BatchLimit
    ensures forall q :: q in FetchQuotesFromServer(response) ==> q.category == ServerCategory
  {
    var batch := FetchQuotesFromServer(response);
    forall q | q in batch
      ensures q.category == ServerCategory
    {
      var i := FirstIndex(batch, q);
      assert batch[i] == q;
    }
  }

  /** The texts of a fetched batch are the leading titles of the payload, in payload order. */
  lemma {:induction false} FetchedTextsAreLeadingTitles(titles: seq<string>)
    ensures Texts(FetchQuotesFromServer(Posts(titles))) == titles[..Min(|titles|, BatchLimit)]
  {
    var batch := FetchQuotesFromServer(Posts(titles));
    assert forall i :: 0 <= i < |batch| ==> Texts(batch)[i] == titles[i];
  }

  /** Posts after the first `BatchLimit` have no effect on the fetched batch. */
  lemma {:induction false} LaterPostsIgnored(titles: seq<string>, more: seq<string>)
    requires |titles| >= BatchLimit
    ensures FetchQuotesFromServer(Posts(titles + more)) == FetchQuotesFromServer(Posts(titles))
  {
    var a := FetchQuotesFromServer(Posts(titles + more));
    var b := FetchQuotesFromServer(Posts(titles));
    assert forall i :: 0 <= i < |a| ==> a[i] == b[i];
  }

  /** The two kinds of status message `syncQuotes` shows: "success" and "info". */
  datatype Status = Success | Info

  /** The list after a round, and the status the round reports. */
  datatype SyncOutcome = SyncOutcome(quotes: seq<Quote>, status: Status)

  /**
   The decision part of `syncQuotes`: merge the fetched batch into the local
   list and report `Success` exactly when the merge flagged a conflict.
   `local` is the list as it stands when the response arrives: the merge and
   the status run after the `await` without yielding.
   */
  function SyncQuotes(local: seq<Quote>, response: FetchResult): (r: SyncOutcome)
    ensures response.FetchFailed? ==> r == SyncOutcome(local, Info)
    ensures |local| <= |r.quotes| <= |local| + BatchLimit
    ensures r.quotes == ExpectedQuotes(local, FetchQuotesFromServer(response))
    ensures r.status == Success <==> ExpectedConflicts(local, FetchQuotesFromServer(response))
  {
    var batch := FetchQuotesFromServer(response);
    var merged := HandleConflicts(local, batch);
    HandleConflictsMatchesReference(local, batch);
    SyncOutcome(merged.quotes, if merged.conflicts then Success else Info)
  }

  /**
   A round reports `Success` exactly when one of the kept posts has the text
   of a local quote or two kept posts share a title.
   */
  lemma {:induction false} SyncSuccessExactly(local: seq<Quote>, titles: seq<string>)
    ensures var kept := titles[..Min(|titles|, BatchLimit)];
      SyncQuotes(local, Posts(titles)).status == Success <==>
        (exists j :: 0 <= j < |kept| && kept[j] in Texts(local)) || !Distinct(kept)
  {
    var kept := titles[..Min(|titles|, BatchLimit)];
    var batch := FetchQuotesFromServer(Posts(titles));
    FetchedTextsAreLeadingTitles(titles);
    ConflictsExactly(local, batch);
    MergedConflicts(local, batch);
    assert forall j :: 0 <= j < |batch| ==> batch[j].text == kept[j];
  }

  /** After a round, every quote is a local one or one built from a kept post. */
  lemma {:induction false} SyncedQuoteOrigin(local: seq<Quote>, response: FetchResult, i: int)
    requires 0 <= i < |SyncQuotes(local, response).quotes|
    ensures var q := SyncQuotes(local, response).quotes[i];
      q in local || (response.Posts? && q.category == ServerCategory && q.text in response.titles[..Min(|response.titles|, BatchLimit)])
  {
    var batch := FetchQuotesFromServer(response);
    MergedRecordOrigin(local, batch, i);
    var q := SyncQuotes(local, response).quotes[i];
    if q !in local {
      var j := FirstIndex(batch, q);
      assert response.titles[..Min(|response.titles|, BatchLimit)][j] == q.text;
    }
  }

  /** Running a round again on the same response leaves the list as it is. */
  lemma {:induction false} RepeatedSyncStable(local: seq<Quote>, response: FetchResult)
    ensures var once := SyncQuotes(local, response);
      SyncQuotes(once.quotes, response).quotes == once.quotes
  {
    var batch := FetchQuotesFromServer(response);
    ResyncChangesNothing(local, batch);
  }
}
